=== FILE: README.md ===
# Flash-loan arbitrage bot: a Dafny model of one evaluation cycle

The bot in `index.js` looks for a round-trip arbitrage between two
Uniswap-V2-style routers on Polygon, QuickSwap and SushiSwap. It prices
1000 USDC -> USDT on one router and the USDT it would get -> USDC on the other
with `getAmountsOut`. When the gross profit is strictly above 2 USDC, it asks
for the gas price and a gas estimate of the flash-loan contract's
`executeFlashLoan`. It subtracts the gas cost and the 0.09% flash-loan fee, and
sends that transaction when the net profit is strictly positive. `main` does
this for QuickSwap -> SushiSwap and then for SushiSwap -> QuickSwap. Every
error inside `checkAndExecute` is caught and dropped.

This model makes every network round trip an input. The `Answers` record
holds the provider's answer to each call:

- the two quotes;
- the gas price and the gas estimate;
- whether the transaction was accepted;
- the receipt.

A rejected promise is `None`. With these inputs, `checkAndExecute` is a pure
function over unbounded integers, the same arithmetic as ethers `BigNumber`.
It returns a `Run`, which holds:

- the outcome: `NoOpportunity`, `Unprofitable`, `Submitted` or `Failed(stage)`;
- the list of external requests it made, in order.

That list is what lets the contracts say which calls happen and which are
skipped.

Modules:

- `Wrappers` (`wrappers.dfy`): `Option`.
- `Arbitrage` (`arbitrage.dfy`): the constants, data types, `CheckAndExecute`
  with its cost and execution steps, and `Main`.
- `ArbitrageProperties` (`properties.dfy`): the lemmas relating runs to the
  answers, to each other and to the two orderings of a cycle.

Choices made where the code is terse:

- A quote answer without an amount at index 1 makes `amounts[1]`
  `undefined` in JavaScript. For the first leg, the second `getAmountsOut` call
  cannot encode its argument and throws before any request. For the second
  leg, `.sub` on `undefined` throws. Both are modelled as `Failed` at that
  leg's stage, with no further request.
- `tx.wait()` rejects when the mined transaction has status 0. This is
  `Receipt.succeeded == false`, which gives `Failed(Confirmation)`.
- The 50 gwei "safety margin" is `parseUnits('50', 'gwei')`, that is
  50 000 000 000. The code adds it to the gas LIMIT, so every submitted gas
  limit is at least 5·10^10 gas. The model keeps this as written, although a
  gas-price unit on a gas-limit quantity is evidently not what was meant.
- Net profit subtracts a gas cost in wei and a fee in USDC base units from a
  profit in USDC base units. The model keeps the raw integers, as the code
  does.
- The code swallows every failure in the `catch`: a failed submission or a
  reverted transaction is not reported differently from a failed quote. The
  model's `Failed(stage)` records where the chain of awaits stopped, and the
  request list shows whether a transaction had already been sent.

## Model

| member | source | states |
|---|---|---|
| Arbitrage.FlashLoanFee | index.js:106 | the fee is 9/10000 of the amount rounded down: `fee*10000 <= 9*amount < (fee+1)*10000` |
| Arbitrage.Evaluate | index.js:105-107 | gas cost is estimate times price; net profit plus gas cost plus fee equals the gross profit; the fee is 900000 whatever the quotes. Its net-profit field is `NetProfit`, the single definition of `profit.sub(gasCost.add(flashLoanFee))` (index.js:107) that every other contract uses. |
| Arbitrage.EstimateAndExecute | index.js:99-127 | gas price is queried first, and the estimate only when the price was answered. A transaction is sent iff both were answered and the net profit `profit - (estimate*price + 900000)` is positive. The sent transaction is the estimated call, with gas limit `estimate + 50 gwei` and the queried price. `Unprofitable` iff net profit <= 0, after two requests, reporting the evaluation of those answers. Each failure is pinned to its stage: no gas price gives `Failed(GasPriceQuery)`, no estimate gives `Failed(GasEstimation)`, a rejected send gives `Failed(Submission)` after three requests with no wait, and a missing or status-0 receipt gives `Failed(Confirmation)`. `Submitted` iff sent, accepted and confirmed successfully. |
| Arbitrage.CheckAndExecute | index.js:81-137 | `HasSecondAmount`/`SecondAmount` model reading `amountsOutA[1]` and `amountsOutB[1]` (index.js:86, 90), and `GrossProfit` models `finalAmount.sub(AMOUNT_TO_TRADE)` (index.js:93). The first request is the first-leg quote of 1000 USDC on `path1`. A second request exists iff that answer has an amount at index 1, and it is the quote of exactly that amount on `path2` from the second router. `NoOpportunity` iff both quotes answered and `amountsOutB[1] - 1000 USDC <= 2 USDC`, reporting that signed profit after exactly two requests. Gas is queried iff the gross profit is above the threshold. A failed first-leg quote gives `Failed(FirstLegQuote)` after one request; a failed second-leg quote gives `Failed(SecondLegQuote)` after two. `Unprofitable` iff both quotes answered, gross profit above the threshold, both gas values answered and net profit <= 0; it then made exactly four requests and reports the evaluation of the gross profit, gas price and estimate. When gas is queried and the price answered, the fourth request is the estimate of the flash-loan call for USDC, 1000 USDC, the two routers and the two paths, and every sent transaction carries that same call. `Failed(stage)` stops after that stage's request. |
| Arbitrage.Main | index.js:55-78 | when every awaited call of the first ordering settles, both orderings run: QuickSwap -> SushiSwap starts with a QuickSwap quote, SushiSwap -> QuickSwap with a SushiSwap quote, each second leg going to the other router along USDT -> USDC. Every transaction sent by QuickSwap -> SushiSwap is the flash loan buying on QuickSwap and selling on SushiSwap, and every transaction sent by SushiSwap -> QuickSwap is the flash loan with the routers swapped. |
| ArbitrageProperties.ThresholdShortCircuit | index.js:93-95 | gross profit at or below 2 USDC, equality included, gives `NoOpportunity(profit)` with only the two quote requests: no gas price, no estimate, no send |
| ArbitrageProperties.SendIffNetProfitPositive | index.js:95-115 | a transaction is sent iff both quotes, the gas price and the estimate are answered, gross profit > threshold and net profit > 0 |
| ArbitrageProperties.SentTransactionMatchesEstimate | index.js:100-121 | any sent request is the fifth. It follows the gas-price query and the estimate of the same call: USDC, 1000 USDC, both routers, both paths. Its gas limit is `estimate + 50 gwei` and its gas price is the queried one. |
| ArbitrageProperties.SubmittedReportsSentTransaction | index.js:113-124 | a confirmed run made six requests, sent the transaction it reports, then waited for the receipt; its reported net profit is the computed one and is positive |
| ArbitrageProperties.FailuresAreContained | index.js:83-136 | every rejection ends the run as `Failed` at its stage with no later request: unanswered quotes within two requests; past the threshold, a missing gas price after three, a missing estimate after four, a rejected send after five, a failed receipt after six. `Submitted` iff the transaction was sent, accepted and mined successfully. |
| ArbitrageProperties.AtMostOneSend | index.js:113-127 | one run sends at most one transaction |
| ArbitrageProperties.FlashLoanFeeOfTradeSize | index.js:106 | the fee for the configured 1000 USDC is 900000 base units |
| ArbitrageProperties.BreakEvenGasPrice | index.js:105-113 | for a positive estimate, net profit is positive iff the gas price is at most `floor((profit - 900000 - 1) / estimate)` |
| ArbitrageProperties.LowerGasPriceStillSends | index.js:100-113 | if a run sends, the same run with any lower gas price also sends |
| ArbitrageProperties.HigherReturnStillSends | index.js:89-113 | if a run sends, the same run with a second-leg quote returning at least as much also sends |
| ArbitrageProperties.MainEvaluatesBothOrderings | index.js:64-77 | a cycle's requests start with the QuickSwap first-leg quote, and the SushiSwap first-leg quote comes right after the first ordering's requests, whatever settled outcome the first ordering had |
| ArbitrageProperties.MainSendsPerOrdering | index.js:63-77 | in each ordering of a cycle, a transaction is sent iff that ordering's quotes, gas price and estimate are answered, its gross profit is above 2 USDC and its net profit is positive |
| ArbitrageProperties.MainOrderingsIndependent | index.js:63-77 | each ordering's run is unchanged when every answer of the other ordering is changed |
| ArbitrageProperties.CycleSendsAtMostTwo | index.js:55-78 | one cycle sends at most two transactions |
| ArbitrageProperties.WorkedExamples | index.js:105-127 | with 5 USDC gross profit: raw gas cost 1.5 USDC gives net 2.6 and a send; 4 USDC gives net 0.1 and a send; 5 USDC gives net -0.9 and no send |
| ArbitrageProperties.GrossProfitMayBeNegative | index.js:93 | a round trip returning 997 USDC reports gross profit -3 USDC as `NoOpportunity` |

## Left out

- Loading the environment and the startup check with `process.exit` (index.js:9-11, 38-41): process I/O before any cycle.
- Constructing the provider, wallet and contracts, and the ABIs (index.js:26-34, 44-52): library wiring. Only the values these objects return are modelled, as inputs.
- Router pricing and the flash-loan contract's execution: foreign code. Quotes, estimates and receipts are opaque inputs and are not tied to any chain state. In particular, a confirmed transaction in the first ordering is not assumed to move the prices seen by the second.
- Acceptance of a send by the node: `Answers.sendAccepted` is a free input. As written, every submitted gas limit is at least 5·10^10 gas, far above Polygon's block gas limit, so a real node would refuse every send. The model does not derive that refusal, since the block gas limit is not part of the code. So the `Submitted` cases of `WorkedExamples` depend on an acceptance the real network would not give.
- Arbitrage.Main: calls that never settle are not modelled. Every answer is a value or a rejection, and `main` awaits the first ordering before starting the second (index.js:64, 72). So "both orderings run" holds only when every awaited call of the first ordering settles. A `tx.wait()` with no timeout (index.js:123) on a transaction that is never mined, or a provider that never answers, stalls the cycle before SushiSwap -> QuickSwap.
- ArbitrageProperties.MainEvaluatesBothOrderings: holds for every settled outcome of the first ordering only. A first ordering that hangs on a call that never settles is outside the model, as for `Arbitrage.Main`.
- Answers are unbounded naturals. The uint256 bound of the ABI is not modelled, since decoded answers always satisfy it.
- Console output, `formatUnits`, timestamps and `pathName` (index.js:56-57, 82, 96-97, 109-111, 114, 124, 126): presentation only. The DEX names are kept in `Dex` but nothing depends on them.
- `setInterval` and the initial `main()` call (index.js:142-143): timer plumbing. Overlapping cycles are a concurrency matter outside this model, which covers one cycle.

=== FILE: arbitrage.dfy ===
/** The arbitrage bot of index.js: one round trip USDC -> USDT -> USDC across
    two Uniswap-V2-style routers, priced with `getAmountsOut`, gated on gross
    and net profit, and executed through a flash-loan contract.

    Every network round trip is an input: the `Answers` record holds what the
    provider answered to each call (`None` when the promise rejects), and a
    run reports the outcome together with the requests it actually made, in
    order. All amounts are ethers `BigNumber`s, i.e. unbounded integers. */
module Arbitrage {
  import opened Wrappers

  type Address = string

  // Polygon addresses (index.js:14-19)
  const UsdcAddress: Address := "0x2791Bca1f2de4661ED88A30C99A7a9449Aa84174"
  const UsdtAddress: Address := "0xc2132D05D31c914a87C6611C10748AEb04B58e8F"
  const QuickswapRouter: Address := "0xa5E0829CaCEd8fFDD4De3c43696c57F7D7A678ff"
  const SushiswapRouter: Address := "0x1b02dA8Cb0d097eB8D57A175b88c7D8b47997506"

  /** One USDC in base units: USDC has 6 decimals. */
  const UsdcUnit: nat := 1_000_000
  /** 1000 USDC borrowed and traded per round trip. */
  const AmountToTrade: nat := 1000 * UsdcUnit
  /** Gross profit must be strictly above 2 USDC before costs are looked at. */
  const MinimumProfitThreshold: nat := 2 * UsdcUnit
  /** The flash-loan fee is 9/10000 (0.09%) of the principal. */
  const FlashLoanFeeNumerator: nat := 9
  const FlashLoanFeeDenominator: nat := 10000
  /** `parseUnits('50', 'gwei')`, added as is to the gas limit. */
  const Gwei: nat := 1_000_000_000
  const GasLimitMargin: nat := 50 * Gwei

  /** A venue: a display name and the address of its router. */
  datatype Dex = Dex(name: string, router: Address)

  const QuickSwap: Dex := Dex("QuickSwap", QuickswapRouter)
  const SushiSwap: Dex := Dex("SushiSwap", SushiswapRouter)
  const PathUsdcToUsdt: seq<Address> := [UsdcAddress, UsdtAddress]
  const PathUsdtToUsdc: seq<Address> := [UsdtAddress, UsdcAddress]

  /** The arguments of the contract's `executeFlashLoan` entry point. */
  datatype FlashLoanCall = FlashLoanCall(
    tokenToBorrow: Address,
    amount: nat,
    router1: Address,
    router2: Address,
    path1: seq<Address>,
    path2: seq<Address>)

  /** A signed `executeFlashLoan` transaction with its gas overrides. */
  datatype Transaction = Transaction(call: FlashLoanCall, gasLimit: nat, gasPrice: nat)

  /** The external requests a run can make, in the order `checkAndExecute` awaits them. */
  datatype Request =
    | GetAmountsOut(router: Address, amountIn: nat, path: seq<Address>)
    | GetGasPrice
    | EstimateGas(call: FlashLoanCall)
    | SendTransaction(tx: Transaction)
    | WaitForReceipt

  /** A mined transaction; `succeeded` is false when its status is 0, in which
      case ethers' `wait()` rejects. */
  datatype Receipt = Receipt(transactionHash: string, succeeded: bool)

  /** What the network answers to each request of one run. */
  datatype Answers = Answers(
    amountsOutA: Option<seq<nat>>,
    amountsOutB: Option<seq<nat>>,
    gasPrice: Option<nat>,
    gasEstimate: Option<nat>,
    sendAccepted: bool,
    receipt: Option<Receipt>)

  /** The step at which a run's promise chain rejected. */
  datatype Stage =
    | FirstLegQuote
    | SecondLegQuote
    | GasPriceQuery
    | GasEstimation
    | Submission
    | Confirmation

  /** Costs and net profit of an opportunity that passed the gross-profit gate.
      The gas cost is in wei and the fee in USDC base units; both are
      subtracted from the profit as raw integers. */
  datatype Evaluation = Evaluation(profit: int, gasCost: nat, flashLoanFee: nat, netProfit: int)

  datatype Outcome =
    | NoOpportunity(profit: int)
    | Unprofitable(evaluation: Evaluation)
    | Submitted(evaluation: Evaluation, tx: Transaction, transactionHash: string)
    | Failed(stage: Stage)

  datatype Run = Run(outcome: Outcome, requests: seq<Request>)

  /** The results of one call of `main`: both orderings of the two routers. */
  datatype Cycle = Cycle(quickToSushi: Run, sushiToQuick: Run)

  /** A `getAmountsOut` answer that has an amount at index 1. */
  predicate HasSecondAmount(answer: Option<seq<nat>>)
  {
    answer.Some? && |answer.value| >= 2
  }

  /** The index-1 element of a quote: the amount received after one hop. */
  function SecondAmount(answer: Option<seq<nat>>): nat
    requires HasSecondAmount(answer)
  {
    answer.value[1]
  }

  /** Both quotes answered with an amount at index 1. */
  predicate QuotesAnswered(answers: Answers)
  {
    HasSecondAmount(answers.amountsOutA) && HasSecondAmount(answers.amountsOutB)
  }

  /** `finalAmount.sub(AMOUNT_TO_TRADE)`: the signed gross profit of a round
      trip whose quotes were both answered. */
  function GrossProfit(answers: Answers): int
    requires QuotesAnswered(answers)
  {
    SecondAmount(answers.amountsOutB) - AmountToTrade
  }

  predicate SendsTransaction(requests: seq<Request>)
  {
    exists i :: 0 <= i < |requests| && requests[i].SendTransaction?
  }

  predicate QueriesGas(requests: seq<Request>)
  {
    exists i :: 0 <= i < |requests| && (requests[i].GetGasPrice? || requests[i].EstimateGas?)
  }

  /** Number of transactions a request sequence submits. */
  function CountSends(requests: seq<Request>): nat
  {
    if requests == [] then 0
    else (if requests[0].SendTransaction? then 1 else 0) + CountSends(requests[1..])
  }

  /** `amount.mul(9).div(10000)`: BigNumber division truncates toward zero,
      which for a non-negative amount is the floor. */
  function FlashLoanFee(amount: nat): (fee: nat)
    ensures fee * FlashLoanFeeDenominator <= amount * FlashLoanFeeNumerator
    ensures amount * FlashLoanFeeNumerator < (fee + 1) * FlashLoanFeeDenominator
  {
    amount * FlashLoanFeeNumerator / FlashLoanFeeDenominator
  }

  /** Net profit of an opportunity with gross profit `profit`. */
  function NetProfit(profit: int, gasPrice: nat, gasEstimate: nat): int
  {
    profit - (gasEstimate * gasPrice + FlashLoanFee(AmountToTrade))
  }

  /** The cost estimate of index.js:105-107. */
  function Evaluate(profit: int, gasPrice: nat, gasEstimate: nat): (e: Evaluation)
    ensures e.profit == profit
    ensures e.netProfit + e.gasCost + e.flashLoanFee == profit
    ensures e.flashLoanFee == 900_000
    ensures e.gasCost == gasEstimate * gasPrice
    ensures e.netProfit == NetProfit(profit, gasPrice, gasEstimate)
  {
    var gasCost := gasEstimate * gasPrice;
    var flashLoanFee := FlashLoanFee(AmountToTrade);
    Evaluation(profit, gasCost, flashLoanFee, NetProfit(profit, gasPrice, gasEstimate))
  }

  /** Position of a stage's request in a full run: a run that fails at
      `stage` has made exactly `StageIndex(stage) + 1` requests. */
  function StageIndex(stage: Stage): nat
  {
    match stage
    case FirstLegQuote => 0
    case SecondLegQuote => 1
    case GasPriceQuery => 2
    case GasEstimation => 3
    case Submission => 4
    case Confirmation => 5
  }

  /** Step 4 of `checkAndExecute` (index.js:99-127), entered once the gross
      profit is above the threshold: query the gas price, estimate the
      flash-loan call, send it when the net profit is positive and wait for
      its receipt. */
  function EstimateAndExecute(call: FlashLoanCall, profit: int, answers: Answers): (r: Run)
    requires profit > MinimumProfitThreshold
    ensures 1 <= |r.requests| <= 4 && r.requests[0] == GetGasPrice
    ensures |r.requests| >= 2 <==> answers.gasPrice.Some?
    ensures |r.requests| >= 2 ==> r.requests[1] == EstimateGas(call)
    ensures SendsTransaction(r.requests) <==>
              answers.gasPrice.Some? && answers.gasEstimate.Some? &&
              NetProfit(profit, answers.gasPrice.value, answers.gasEstimate.value) > 0
    ensures |r.requests| >= 3 ==>
              && answers.gasPrice.Some? && answers.gasEstimate.Some?
              && r.requests[2] == SendTransaction(Transaction(call, answers.gasEstimate.value + GasLimitMargin, answers.gasPrice.value))
    ensures |r.requests| == 4 ==> r.requests[3] == WaitForReceipt
    ensures r.outcome.Unprofitable? <==>
              answers.gasPrice.Some? && answers.gasEstimate.Some? &&
              NetProfit(profit, answers.gasPrice.value, answers.gasEstimate.value) <= 0
    ensures r.outcome.Unprofitable? ==>
              && r.outcome.evaluation == Evaluate(profit, answers.gasPrice.value, answers.gasEstimate.value)
              && |r.requests| == 2
    ensures answers.gasPrice.None? ==> r.outcome == Failed(GasPriceQuery)
    ensures answers.gasPrice.Some? && answers.gasEstimate.None? ==> r.outcome == Failed(GasEstimation)
    ensures SendsTransaction(r.requests) && !answers.sendAccepted ==>
              r.outcome == Failed(Submission) && |r.requests| == 3
    ensures SendsTransaction(r.requests) && answers.sendAccepted ==> |r.requests| == 4
    ensures SendsTransaction(r.requests) && answers.sendAccepted &&
            (answers.receipt.None? || !answers.receipt.value.succeeded) ==>
              r.outcome == Failed(Confirmation)
    ensures r.outcome.Submitted? <==>
              SendsTransaction(r.requests) && answers.sendAccepted &&
              answers.receipt.Some? && answers.receipt.value.succeeded
    ensures r.outcome.Submitted? ==>
              && r.outcome.tx == r.requests[2].tx
              && r.outcome.evaluation.netProfit > 0
              && r.outcome.transactionHash == answers.receipt.value.transactionHash
    ensures r.outcome.Failed? ==> |r.requests| == StageIndex(r.outcome.stage) - 1
    ensures !r.outcome.NoOpportunity?
  {
    match answers.gasPrice
    case None => Run(Failed(GasPriceQuery), [GetGasPrice])
    case Some(gasPrice) =>
      match answers.gasEstimate
      case None => Run(Failed(GasEstimation), [GetGasPrice, EstimateGas(call)])
      case Some(gasEstimate) =>
        var evaluation := Evaluate(profit, gasPrice, gasEstimate);
        if evaluation.netProfit <= 0 then
          Run(Unprofitable(evaluation), [GetGasPrice, EstimateGas(call)])
        else
          var tx := Transaction(call, gasEstimate + GasLimitMargin, gasPrice);
          var sent := [GetGasPrice, EstimateGas(call), SendTransaction(tx)];
          var waited := sent + [WaitForReceipt];
          assert sent[2].SendTransaction? && waited[2] == sent[2];
          if !answers.sendAccepted then
            Run(Failed(Submission), sent)
          else
            match answers.receipt
            case None => Run(Failed(Confirmation), waited)
            case Some(receipt) =>
              if receipt.succeeded then
                Run(Submitted(evaluation, tx, receipt.transactionHash), waited)
              else
                Run(Failed(Confirmation), waited)
  }

  /** `checkAndExecute(dexA, dexB, path1, path2)` (index.js:81-137). The
      try/catch turns every rejection into `Failed`, so a run always returns. */
  function CheckAndExecute(dexA: Dex, dexB: Dex, path1: seq<Address>, path2: seq<Address>, answers: Answers): (r: Run)
    ensures 1 <= |r.requests| <= 6
    ensures r.requests[0] == GetAmountsOut(dexA.router, AmountToTrade, path1)
    ensures |r.requests| >= 2 <==> HasSecondAmount(answers.amountsOutA)
    ensures |r.requests| >= 2 ==>
              r.requests[1] == GetAmountsOut(dexB.router, SecondAmount(answers.amountsOutA), path2)
    ensures r.outcome.NoOpportunity? <==>
              && QuotesAnswered(answers)
              && GrossProfit(answers) <= MinimumProfitThreshold
    ensures r.outcome.NoOpportunity? ==>
              r.outcome.profit == GrossProfit(answers) && |r.requests| == 2
    ensures QueriesGas(r.requests) <==>
              && QuotesAnswered(answers)
              && GrossProfit(answers) > MinimumProfitThreshold
    ensures QueriesGas(r.requests) ==> r.requests[2] == GetGasPrice
    ensures QueriesGas(r.requests) && answers.gasPrice.Some? ==>
              |r.requests| >= 4 &&
              r.requests[3] == EstimateGas(FlashLoanCall(UsdcAddress, AmountToTrade, dexA.router, dexB.router, path1, path2))
    ensures forall i :: 0 <= i < |r.requests| && r.requests[i].SendTransaction? ==>
              r.requests[i].tx.call == FlashLoanCall(UsdcAddress, AmountToTrade, dexA.router, dexB.router, path1, path2)
    ensures r.outcome.Unprofitable? ==>
              && QuotesAnswered(answers) && answers.gasPrice.Some? && answers.gasEstimate.Some?
              && |r.requests| == 4
              && r.outcome.evaluation == Evaluate(GrossProfit(answers), answers.gasPrice.value, answers.gasEstimate.value)
    ensures !HasSecondAmount(answers.amountsOutA) ==> r.outcome == Failed(FirstLegQuote)
    ensures HasSecondAmount(answers.amountsOutA) && !HasSecondAmount(answers.amountsOutB) ==>
              r.outcome == Failed(SecondLegQuote) && |r.requests| == 2
    ensures r.outcome.Unprofitable? <==>
              && QuotesAnswered(answers)
              && GrossProfit(answers) > MinimumProfitThreshold
              && answers.gasPrice.Some? && answers.gasEstimate.Some?
              && NetProfit(GrossProfit(answers), answers.gasPrice.value, answers.gasEstimate.value) <= 0
    ensures r.outcome.Failed? ==> |r.requests| == StageIndex(r.outcome.stage) + 1
  {
    var firstQuote := GetAmountsOut(dexA.router, AmountToTrade, path1);
    if !HasSecondAmount(answers.amountsOutA) then
      Run(Failed(FirstLegQuote), [firstQuote])
    else
      var receivedAmount := SecondAmount(answers.amountsOutA);
      var secondQuote := GetAmountsOut(dexB.router, receivedAmount, path2);
      if !HasSecondAmount(answers.amountsOutB) then
        Run(Failed(SecondLegQuote), [firstQuote, secondQuote])
      else
        var profit := GrossProfit(answers);
        if profit > MinimumProfitThreshold then
          var call := FlashLoanCall(UsdcAddress, AmountToTrade, dexA.router, dexB.router, path1, path2);
          var rest := EstimateAndExecute(call, profit, answers);
          assert ([firstQuote, secondQuote] + rest.requests)[2] == GetGasPrice;
          Run(rest.outcome, [firstQuote, secondQuote] + rest.requests)
        else
          Run(NoOpportunity(profit), [firstQuote, secondQuote])
  }

  /** `main` (index.js:55-78): QuickSwap -> SushiSwap, then SushiSwap ->
      QuickSwap, each ordering with its own answers. */
  function Main(quickToSushi: Answers, sushiToQuick: Answers): (c: Cycle)
    ensures |c.quickToSushi.requests| >= 1 && c.quickToSushi.requests[0] == GetAmountsOut(QuickswapRouter, AmountToTrade, PathUsdcToUsdt)
    ensures |c.sushiToQuick.requests| >= 1 && c.sushiToQuick.requests[0] == GetAmountsOut(SushiswapRouter, AmountToTrade, PathUsdcToUsdt)
    ensures HasSecondAmount(quickToSushi.amountsOutA) ==>
              |c.quickToSushi.requests| >= 2 && c.quickToSushi.requests[1] == GetAmountsOut(SushiswapRouter, SecondAmount(quickToSushi.amountsOutA), PathUsdtToUsdc)
    ensures forall i :: 0 <= i < |c.quickToSushi.requests| && c.quickToSushi.requests[i].SendTransaction? ==>
              c.quickToSushi.requests[i].tx.call ==
                FlashLoanCall(UsdcAddress, AmountToTrade, QuickswapRouter, SushiswapRouter, PathUsdcToUsdt, PathUsdtToUsdc)
    ensures forall i :: 0 <= i < |c.sushiToQuick.requests| && c.sushiToQuick.requests[i].SendTransaction? ==>
              c.sushiToQuick.requests[i].tx.call ==
                FlashLoanCall(UsdcAddress, AmountToTrade, SushiswapRouter, QuickswapRouter, PathUsdcToUsdt, PathUsdtToUsdc)
    ensures HasSecondAmount(sushiToQuick.amountsOutA) ==>
              |c.sushiToQuick.requests| >= 2 && c.sushiToQuick.requests[1] == GetAmountsOut(QuickswapRouter, SecondAmount(sushiToQuick.amountsOutA), PathUsdtToUsdc)
  {
    Cycle(
      CheckAndExecute(QuickSwap, SushiSwap, PathUsdcToUsdt, PathUsdtToUsdc, quickToSushi),
      CheckAndExecute(SushiSwap, QuickSwap, PathUsdcToUsdt, PathUsdtToUsdc, sushiToQuick))
  }

  /** Every request of one cycle, in the order `main` awaits them. */
  function CycleRequests(c: Cycle): seq<Request>
  {
    c.quickToSushi.requests + c.sushiToQuick.requests
  }
}

=== FILE: properties.dfy ===
/** Properties of one `checkAndExecute` run and of one `main` cycle: the
    chaining of the two quotes, the strict gross-profit gate and its
    short-circuit, the net-profit gate, the shape of the submitted
    transaction, and the independence of the two orderings. */
module ArbitrageProperties {
  import opened Wrappers
  import opened Arbitrage

  /** The highest gas price at which an opportunity with gross profit
      `profit` and gas estimate `gasEstimate` is still sent. */
  function MaxProfitableGasPrice(profit: int, gasEstimate: nat): int
    requires gasEstimate > 0
  {
    (profit - FlashLoanFee(AmountToTrade) - 1) / gasEstimate
  }

  lemma MulMonotone(a: int, b: int, e: nat)
    requires a <= b
    ensures a * e <= b * e
  {
  }

  lemma {:induction false} CountSendsAppend(a: seq<Request>, b: seq<Request>)
    ensures CountSends(a + b) == CountSends(a) + CountSends(b)
    decreases |a|
  {
    if a == [] {
      assert a + b == b;
    } else {
      assert (a + b)[1..] == a[1..] + b;
      CountSendsAppend(a[1..], b);
    }
  }

  /** A request sequence submits something exactly when its count of
      submissions is positive. */
  lemma {:induction false} CountSendsPositive(requests: seq<Request>)
    ensures CountSends(requests) > 0 <==> SendsTransaction(requests)
    decreases |requests|
  {
    if requests != [] {
      CountSendsPositive(requests[1..]);
      if SendsTransaction(requests[1..]) {
        var i :| 0 <= i < |requests[1..]| && requests[1..][i].SendTransaction?;
        assert requests[i + 1].SendTransaction?;
      }
      if SendsTransaction(requests) && !requests[0].SendTransaction? {
        var i :| 0 <= i < |requests| && requests[i].SendTransaction?;
        assert requests[1..][i - 1].SendTransaction?;
      }
    }
  }

  /** Two requests that are not submissions can be put in front of a
      sequence without changing whether it submits. */
  lemma QuotesDoNotSend(q1: Request, q2: Request, rest: seq<Request>)
    requires !q1.SendTransaction? && !q2.SendTransaction?
    ensures SendsTransaction([q1, q2] + rest) <==> SendsTransaction(rest)
  {
    CountSendsAppend([q1, q2], rest);
    assert CountSends([q1, q2]) == 0 by {
      assert [q1, q2][1..] == [q2];
      assert [q2][1..] == [];
    }
    CountSendsPositive([q1, q2] + rest);
    CountSendsPositive(rest);
  }

  /** The strict gross-profit gate and its short-circuit (index.js:93-95,
      129-132): at or below the threshold, equality included, the run
      ends after the two quotes, without gas queries and without sending. */
  lemma ThresholdShortCircuit(dexA: Dex, dexB: Dex, path1: seq<Address>, path2: seq<Address>, answers: Answers)
    requires QuotesAnswered(answers) && GrossProfit(answers) <= MinimumProfitThreshold
    ensures var r := CheckAndExecute(dexA, dexB, path1, path2, answers);
      && r.outcome == NoOpportunity(GrossProfit(answers))
      && r.requests == [GetAmountsOut(dexA.router, AmountToTrade, path1),
                        GetAmountsOut(dexB.router, SecondAmount(answers.amountsOutA), path2)]
      && !QueriesGas(r.requests)
      && !SendsTransaction(r.requests)
  {
  }

  /** A transaction is sent iff both quotes, the gas price and the gas
      estimate were answered, the gross profit is above the threshold and
      the net profit is strictly positive (index.js:95, 105-113). */
  lemma SendIffNetProfitPositive(dexA: Dex, dexB: Dex, path1: seq<Address>, path2: seq<Address>, answers: Answers)
    ensures SendsTransaction(CheckAndExecute(dexA, dexB, path1, path2, answers).requests) <==>
      && QuotesAnswered(answers)
      && GrossProfit(answers) > MinimumProfitThreshold
      && answers.gasPrice.Some? && answers.gasEstimate.Some?
      && NetProfit(GrossProfit(answers), answers.gasPrice.value, answers.gasEstimate.value) > 0
  {
    var r := CheckAndExecute(dexA, dexB, path1, path2, answers);
    if QuotesAnswered(answers) && GrossProfit(answers) > MinimumProfitThreshold {
      var call := FlashLoanCall(UsdcAddress, AmountToTrade, dexA.router, dexB.router, path1, path2);
      var rest := EstimateAndExecute(call, GrossProfit(answers), answers);
      QuotesDoNotSend(r.requests[0], r.requests[1], rest.requests);
    }
  }

  /** The transaction that is sent is the estimated call, with gas limit
      `gasEstimate + 50 gwei` and the queried gas price (index.js:100-121). */
  lemma SentTransactionMatchesEstimate(dexA: Dex, dexB: Dex, path1: seq<Address>, path2: seq<Address>, answers: Answers, i: nat)
    requires var r := CheckAndExecute(dexA, dexB, path1, path2, answers);
      i < |r.requests| && r.requests[i].SendTransaction?
    ensures var r := CheckAndExecute(dexA, dexB, path1, path2, answers);
      var call := FlashLoanCall(UsdcAddress, AmountToTrade, dexA.router, dexB.router, path1, path2);
      && i == 4
      && answers.gasPrice.Some? && answers.gasEstimate.Some?
      && r.requests[2] == GetGasPrice
      && r.requests[3] == EstimateGas(call)
      && r.requests[4].tx == Transaction(call, answers.gasEstimate.value + GasLimitMargin, answers.gasPrice.value)
      && r.requests[4].tx.gasLimit >= GasLimitMargin
  {
  }

  /** A request sequence in which only position `k` may be a submission
      submits at most once, and not at all when `k` is out of range. */
  lemma {:induction false} CountSendsOnlyAt(requests: seq<Request>, k: int)
    requires forall j :: 0 <= j < |requests| && j != k ==> !requests[j].SendTransaction?
    ensures CountSends(requests) <= 1
    ensures !(0 <= k < |requests|) ==> CountSends(requests) == 0
    decreases |requests|
  {
    if requests != [] {
      CountSendsOnlyAt(requests[1..], k - 1);
    }
  }

  /** Every rejection is contained: a run whose quotes, gas queries, send
      or receipt fail ends as `Failed` at that stage, after that stage's
      request and with no later one, and only a sent, accepted and
      successfully mined transaction is `Submitted` (index.js:83-136). */
  lemma FailuresAreContained(dexA: Dex, dexB: Dex, path1: seq<Address>, path2: seq<Address>, answers: Answers)
    ensures var r := CheckAndExecute(dexA, dexB, path1, path2, answers);
      && (!QuotesAnswered(answers) ==> r.outcome.Failed? && |r.requests| <= 2)
      && (QuotesAnswered(answers) && GrossProfit(answers) > MinimumProfitThreshold ==>
          && (answers.gasPrice.None? ==> r.outcome == Failed(GasPriceQuery) && |r.requests| == 3)
          && (answers.gasPrice.Some? && answers.gasEstimate.None? ==>
                r.outcome == Failed(GasEstimation) && |r.requests| == 4)
          && (SendsTransaction(r.requests) && !answers.sendAccepted ==>
                r.outcome == Failed(Submission) && |r.requests| == 5)
          && (SendsTransaction(r.requests) && answers.sendAccepted &&
              (answers.receipt.None? || !answers.receipt.value.succeeded) ==>
                r.outcome == Failed(Confirmation) && |r.requests| == 6))
      && (r.outcome.Submitted? <==>
            SendsTransaction(r.requests) && answers.sendAccepted &&
            answers.receipt.Some? && answers.receipt.value.succeeded)
  {
    var r := CheckAndExecute(dexA, dexB, path1, path2, answers);
    if QuotesAnswered(answers) && GrossProfit(answers) > MinimumProfitThreshold {
      var call := FlashLoanCall(UsdcAddress, AmountToTrade, dexA.router, dexB.router, path1, path2);
      var rest := EstimateAndExecute(call, GrossProfit(answers), answers);
      QuotesDoNotSend(r.requests[0], r.requests[1], rest.requests);
    } else {
      SendIffNetProfitPositive(dexA, dexB, path1, path2, answers);
    }
  }

  /** One run submits at most one transaction. */
  lemma AtMostOneSend(dexA: Dex, dexB: Dex, path1: seq<Address>, path2: seq<Address>, answers: Answers)
    ensures CountSends(CheckAndExecute(dexA, dexB, path1, path2, answers).requests) <= 1
  {
    var r := CheckAndExecute(dexA, dexB, path1, path2, answers);
    forall j | 0 <= j < |r.requests| && r.requests[j].SendTransaction?
      ensures j == 4
    {
      SentTransactionMatchesEstimate(dexA, dexB, path1, path2, answers, j);
    }
    CountSendsOnlyAt(r.requests, 4);
  }

  /** A confirmed run reports the transaction it sent and the net profit
      it estimated, which is strictly positive. */
  lemma SubmittedReportsSentTransaction(dexA: Dex, dexB: Dex, path1: seq<Address>, path2: seq<Address>, answers: Answers)
    requires CheckAndExecute(dexA, dexB, path1, path2, answers).outcome.Submitted?
    ensures var r := CheckAndExecute(dexA, dexB, path1, path2, answers);
      && |r.requests| == 6
      && r.requests[4] == SendTransaction(r.outcome.tx)
      && r.requests[5] == WaitForReceipt
      && QuotesAnswered(answers) && answers.gasPrice.Some? && answers.gasEstimate.Some?
      && r.outcome.evaluation.netProfit == NetProfit(GrossProfit(answers), answers.gasPrice.value, answers.gasEstimate.value)
      && r.outcome.evaluation.netProfit > 0
  {
  }

  /** The flash-loan fee is 900000 base units (0.9 USDC) for the configured
      1000 USDC, whatever the quotes (index.js:22, 106). */
  lemma FlashLoanFeeOfTradeSize()
    ensures FlashLoanFee(AmountToTrade) == 900_000
  {
  }

  /** Net profit is positive exactly up to a break-even gas price. */
  lemma BreakEvenGasPrice(profit: int, gasPrice: nat, gasEstimate: nat)
    requires gasEstimate > 0
    ensures NetProfit(profit, gasPrice, gasEstimate) > 0 <==> gasPrice <= MaxProfitableGasPrice(profit, gasEstimate)
  {
    var x := profit - FlashLoanFee(AmountToTrade) - 1;
    var q := x / gasEstimate;
    assert x == q * gasEstimate + x % gasEstimate;
    if gasPrice <= q {
      MulMonotone(gasPrice, q, gasEstimate);
    } else {
      MulMonotone(q + 1, gasPrice, gasEstimate);
      assert (q + 1) * gasEstimate == q * gasEstimate + gasEstimate;
    }
  }

  /** A lower gas price never turns a sent transaction into a skipped one. */
  lemma LowerGasPriceStillSends(dexA: Dex, dexB: Dex, path1: seq<Address>, path2: seq<Address>, answers: Answers, lowerPrice: nat)
    requires answers.gasPrice.Some? && lowerPrice <= answers.gasPrice.value
    requires SendsTransaction(CheckAndExecute(dexA, dexB, path1, path2, answers).requests)
    ensures SendsTransaction(CheckAndExecute(dexA, dexB, path1, path2, answers.(gasPrice := Some(lowerPrice))).requests)
  {
    var cheaper := answers.(gasPrice := Some(lowerPrice));
    SendIffNetProfitPositive(dexA, dexB, path1, path2, answers);
    SendIffNetProfitPositive(dexA, dexB, path1, path2, cheaper);
    MulMonotone(lowerPrice, answers.gasPrice.value, answers.gasEstimate.value);
    assert answers.gasEstimate.value * lowerPrice <= answers.gasEstimate.value * answers.gasPrice.value;
  }

  /** A better second-leg quote never turns a sent transaction into a
      skipped one. */
  lemma HigherReturnStillSends(dexA: Dex, dexB: Dex, path1: seq<Address>, path2: seq<Address>, answers: Answers, betterQuote: seq<nat>)
    requires HasSecondAmount(answers.amountsOutB) && |betterQuote| >= 2
    requires betterQuote[1] >= SecondAmount(answers.amountsOutB)
    requires SendsTransaction(CheckAndExecute(dexA, dexB, path1, path2, answers).requests)
    ensures SendsTransaction(CheckAndExecute(dexA, dexB, path1, path2, answers.(amountsOutB := Some(betterQuote))).requests)
  {
    SendIffNetProfitPositive(dexA, dexB, path1, path2, answers);
    SendIffNetProfitPositive(dexA, dexB, path1, path2, answers.(amountsOutB := Some(betterQuote)));
  }

  /** `main` always runs both orderings, one after the other, whatever
      settled outcome the first one had: the cycle's requests start with the QuickSwap quote
      and continue with the SushiSwap quote right after the first run's
      requests (index.js:64-77). */
  lemma MainEvaluatesBothOrderings(quickToSushi: Answers, sushiToQuick: Answers)
    ensures var c := Main(quickToSushi, sushiToQuick);
      var all := CycleRequests(c);
      && |c.quickToSushi.requests| < |all|
      && all[0] == GetAmountsOut(QuickswapRouter, AmountToTrade, PathUsdcToUsdt)
      && all[|c.quickToSushi.requests|] == GetAmountsOut(SushiswapRouter, AmountToTrade, PathUsdcToUsdt)
  {
  }

  /** In each ordering of a cycle, a transaction is sent iff that ordering's
      quotes, gas price and estimate are answered, its gross profit is above
      the threshold and its net profit is positive (index.js:63-77). */
  lemma MainSendsPerOrdering(quickToSushi: Answers, sushiToQuick: Answers)
    ensures var c := Main(quickToSushi, sushiToQuick);
      SendsTransaction(c.quickToSushi.requests) <==>
        && QuotesAnswered(quickToSushi)
        && GrossProfit(quickToSushi) > MinimumProfitThreshold
        && quickToSushi.gasPrice.Some? && quickToSushi.gasEstimate.Some?
        && NetProfit(GrossProfit(quickToSushi), quickToSushi.gasPrice.value, quickToSushi.gasEstimate.value) > 0
    ensures var c := Main(quickToSushi, sushiToQuick);
      SendsTransaction(c.sushiToQuick.requests) <==>
        && QuotesAnswered(sushiToQuick)
        && GrossProfit(sushiToQuick) > MinimumProfitThreshold
        && sushiToQuick.gasPrice.Some? && sushiToQuick.gasEstimate.Some?
        && NetProfit(GrossProfit(sushiToQuick), sushiToQuick.gasPrice.value, sushiToQuick.gasEstimate.value) > 0
  {
    SendIffNetProfitPositive(QuickSwap, SushiSwap, PathUsdcToUsdt, PathUsdtToUsdc, quickToSushi);
    SendIffNetProfitPositive(SushiSwap, QuickSwap, PathUsdcToUsdt, PathUsdtToUsdc, sushiToQuick);
  }

  /** The two orderings are independent: changing every answer of one
      leaves the other's run unchanged. */
  lemma MainOrderingsIndependent(quickToSushi: Answers, sushiToQuick: Answers, otherQuickToSushi: Answers, otherSushiToQuick: Answers)
    ensures Main(quickToSushi, sushiToQuick).sushiToQuick == Main(otherQuickToSushi, sushiToQuick).sushiToQuick
    ensures Main(quickToSushi, sushiToQuick).quickToSushi == Main(quickToSushi, otherSushiToQuick).quickToSushi
  {
  }

  /** One cycle submits at most two transactions, one per ordering. */
  lemma CycleSendsAtMostTwo(quickToSushi: Answers, sushiToQuick: Answers)
    ensures CountSends(CycleRequests(Main(quickToSushi, sushiToQuick))) <= 2
  {
    var c := Main(quickToSushi, sushiToQuick);
    CountSendsAppend(c.quickToSushi.requests, c.sushiToQuick.requests);
    AtMostOneSend(QuickSwap, SushiSwap, PathUsdcToUsdt, PathUsdtToUsdc, quickToSushi);
    AtMostOneSend(SushiSwap, QuickSwap, PathUsdcToUsdt, PathUsdtToUsdc, sushiToQuick);
  }

  /** A profitable round trip: 1000 USDC buys 998 USDT, which buy back
      1005 USDC, a gross profit of 5 USDC. The gas price is 1 and the gas
      estimate is a parameter, so the raw gas cost equals the estimate; the
      send is accepted and confirmed. */
  function ExampleAnswers(gasEstimate: nat): Answers
  {
    Answers(
      Some([1_000_000_000, 998_000_000]),
      Some([998_000_000, 1_005_000_000]),
      Some(1),
      Some(gasEstimate),
      true,
      Some(Receipt("0xabc", true)))
  }

  /** With 5 USDC gross profit and a 0.9 USDC fee, a raw gas cost of 1.5
      or 4 USDC worth of base units leaves a net profit of 2.6 or 0.1 USDC,
      which is sent and confirmed; a gas cost of 5 leaves -0.9, which is not
      sent. */
  lemma WorkedExamples()
    ensures var r := CheckAndExecute(QuickSwap, SushiSwap, PathUsdcToUsdt, PathUsdtToUsdc, ExampleAnswers(1_500_000));
      r.outcome.Submitted? && r.outcome.evaluation.netProfit == 2_600_000
    ensures var r := CheckAndExecute(QuickSwap, SushiSwap, PathUsdcToUsdt, PathUsdtToUsdc, ExampleAnswers(4_000_000));
      r.outcome.Submitted? && r.outcome.evaluation.netProfit == 100_000
    ensures var r := CheckAndExecute(QuickSwap, SushiSwap, PathUsdcToUsdt, PathUsdtToUsdc, ExampleAnswers(5_000_000));
      r.outcome == Unprofitable(Evaluation(5_000_000, 5_000_000, 900_000, -900_000)) && |r.requests| == 4
  {
  }

  /** Gross profit is signed: a round trip that returns less than it
      started with reports a negative profit and stops there. */
  lemma GrossProfitMayBeNegative()
    ensures var answers := ExampleAnswers(0).(amountsOutB := Some([998_000_000, 997_000_000]));
      CheckAndExecute(SushiSwap, QuickSwap, PathUsdcToUsdt, PathUsdtToUsdc, answers).outcome == NoOpportunity(-3_000_000)
  {
  }
}

=== FILE: wrappers.dfy ===
/** The answer of a network call that may fail: `None` stands for a rejected
    promise (provider unreachable, call reverted, insufficient liquidity). */
module Wrappers {

  datatype Option<+T> = None | Some(value: T)
}
